=== FILE: README.md ===
# Storefront API store semantics, modelled in Dafny

This project models the route handlers of the storefront's backend
(`backend/server.py`), a FastAPI service over three MongoDB collections and a
language-model client. The `products` and `cart` collections become in-memory
sequences in stored (natural) order, grouped in a `Store`. Each handler
becomes a pure function from the store to a `Reply`: the answer or HTTP error,
plus the store afterwards. The language model's replies, the fresh `uuid4`
ids and the regex matching done by the database are parameters of these
functions.

Modules:

- `Wrappers` (`wrappers.dfy`): `Option` and `Result`.
- `Seqs` (`seqs.dfy`): the collection scans. `FirstIndex` is `find_one` in
  stored order, `Filter` is `find` with a filter, `Take` is `limit`/`to_list`,
  and `IsSubseq` states "same order, nothing invented".
- `Records` (`records.dfy`): products, cart lines, the add request (its
  quantity defaults to 1), enriched cart lines, HTTP errors with their status
  codes, the store, and replies.
- `Text` (`text.dfy`): Python's `split(',')`, `strip()` and `lower()`, and
  the two parsers of the model's comma-separated replies.
- `Catalog` (`catalog.dfy`): product lookup, `GET /products/{id}`,
  `GET /products` (category filter and `limit`), and recommendation assembly.
- `Seeding` (`seeding.dfy`): the sample catalog and `POST /products/seed`.
- `Cart` (`cart.dfy`): `POST /cart`, `DELETE /cart/{item_id}` and
  `GET /cart/{user_id}`, plus the cart invariants. These are at most one line
  per (product, user) pair, unique line ids, and the per-pair quantity ledger.

Behaviour taken from the code:

- In `add_to_cart`, the 404 for an unknown product is raised inside the
  handler's `try`. The generic `except` catches it and re-raises it as a 500,
  so the model answers `Internal(Rethrown(ProductNotFound))`.
- The merge path updates the line by id (`update_one({"id": ..})`), not by
  position. The model updates the first line carrying that id, and
  `Cart.UpsertMerges` shows this is the merged line once ids are unique.
- `get_cart` reads at most 100 of the user's lines before it drops orphaned
  lines.
- `limit` above 100 is rejected by request validation (422). The bound is
  `le=100` only, so a negative limit reaches the driver. There `to_list`
  refuses a negative length, and the handler turns that into a 500. A limit
  of 0 yields an empty page.
- The add request's quantity may be any integer, zero or negative included,
  because the request model does not require it to be positive. The store's
  own 64-bit bound is not modelled (see "Left out").
- The frontend is not modelled.

## Model

| member | source | states |
|---|---|---|
| `Text.Split` | backend/server.py:100 | `reply.split(',')` yields at least one piece, and no piece contains the separator |
| `Text.SplitJoin` | backend/server.py:100 | joining the pieces with the separator gives back the original reply |
| `Text.JoinSplit` | backend/server.py:100 | separator-free pieces joined with the separator split back into exactly those pieces |
| `Text.SplitCount` | backend/server.py:100 | there is exactly one more piece than there are commas |
| `Text.Strip` | backend/server.py:100 | `strip()` returns an infix of its input with whitespace on neither end, removing only whitespace before and after it |
| `Text.StripPadded` | backend/server.py:100 | a trimmed string padded with whitespace on both sides strips back to itself, so strip removes exactly the surrounding whitespace |
| `Text.StripIdempotent` | backend/server.py:100 | stripping twice equals stripping once |
| `Text.Lower` | backend/server.py:120 | lower-casing keeps the length, leaves no upper-case letter, changes nothing else and maps each capital to its lower-case letter |
| `Text.ParseKeywords` | backend/server.py:100 | the keyword list has one entry per comma plus one, each stripped and comma-free |
| `Text.ParseCategories` | backend/server.py:120 | the category list has one entry per comma plus one, each stripped, comma-free and lower-case |
| `Text.KeywordsRoundTrip` | backend/server.py:92-101 | a reply listing one or more trimmed, comma-free keywords separated by commas, each with its own arbitrary whitespace before and after it, parses back to exactly those keywords |
| `Text.CategoriesRoundTrip` | backend/server.py:103-121 | the same reply read as categories gives each keyword lower-cased, in order |
| `Text.TwoPieceKeywords` | backend/server.py:100 | the usual reply shape `"a, b"` (one space after the comma) lists exactly the keywords `a` and `b` |
| `Text.TwoPieceCategories` | backend/server.py:120 | the reply `"a, b"` read as categories gives `a` and `b` lower-cased |
| `Catalog.LookupProduct` | backend/server.py:271 | `find_one` by id returns the first product with that id, and finds none exactly when no product has it |
| `Catalog.GetProduct` | backend/server.py:240-246 | answers the product with the requested id, or 404 exactly when the catalog has no such id |
| `Catalog.GetProducts` | backend/server.py:210-238 | when the keyword call and the search predicate do not raise, fails exactly when limit is above 100 (422) or negative (500). Otherwise returns a prefix of the selected products (catalog order, requested category, matching the search) of length min(`limit`, number selected), so all of them when no more than `limit` are selected |
| `Catalog.ListProducts` | backend/server.py:210-215 | with a limit the route is `GetProducts` with that limit. Without one it never fails and returns the first 20 selected products, or all of them when fewer are selected |
| `Catalog.UnfilteredListing` | backend/server.py:214-235 | with no (or empty) category and search, the listing is the first `limit` products in stored order |
| `Catalog.CategoryPicks` | backend/server.py:256 | a recommended category contributes the first min(2, number matching) catalog products that match it, so all matching products when at most two match |
| `Catalog.RecommendFor` | backend/server.py:254-257 | at most two products per recommended category, each from the catalog and matching some recommended category |
| `Catalog.RecommendForAppend` | backend/server.py:255-257 | the picks of consecutive category lists are concatenated in category order |
| `Catalog.RecommendForOne` | backend/server.py:256 | a single category contributes its picks, which are exactly two when at least two products match |
| `Catalog.GetRecommendations` | backend/server.py:248-264 | for a category predicate that never fails, fails with a 500 exactly when the model call raises. Otherwise it returns the parsed categories (one more than the reply's commas) and, as products, exactly the concatenated picks of those categories in order |
| `Seeding.SeedFrom` | backend/server.py:192-206 | the loop only appends, adding at most one product per sample. It succeeds exactly when every description call succeeds, and then every sample name is present. The names afterwards are the former names plus sample names only, and nothing changes when every sample name is already present |
| `Seeding.CandidatesAt` | backend/server.py:192-199 | the product the loop builds at position `i` of the candidates from sample `k` on is the sample at index `k + i`, with its generated description and id, and that description call succeeded |
| `Seeding.CandidatesStop` | backend/server.py:192-194 | the candidates run exactly up to the first failing description call: every call they cover succeeds, and the call right after them fails unless the samples are exhausted |
| `Seeding.SeedFromInOrder` | backend/server.py:192-204 | the products the loop appends are a subsequence of those candidates, so they come in sample order and each is a sample with its description and id |
| `Seeding.SeedFromKeepsEarlier` | backend/server.py:192-208 | the loop has no transaction: every sample before the first failing description call has its name in the catalog afterwards, whether or not a later call fails |
| `Seeding.SeedFromFresh` | backend/server.py:197-204 | every product the loop appends carries a sample name the catalog lacked |
| `Seeding.SeedFromUnique` | backend/server.py:201-204 | the loop keeps a catalog's names unique |
| `Seeding.SeedProducts` | backend/server.py:188-208 | the handler leaves the cart alone and keeps the existing products as a prefix. It fails with a 500 exactly when a description call raises, and nothing is rolled back: every sample before the first failing call has its name present afterwards. On success every sample name is present. The names afterwards are the former names plus sample names only, so no new name other than a sample name appears |
| `Seeding.SeedAddsMissingSamples` | backend/server.py:192-204 | every product the handler adds carries a sample name that was missing before and is a sample with its generated description and id, the added products come in sample order, and unique names stay unique |
| `Seeding.NamesCount` | backend/server.py:201-204 | with unique names the catalog has exactly as many names as products |
| `Seeding.SeedIdempotent` | backend/server.py:201-204 | after a successful run, seeding again leaves the store unchanged whatever the model replies |
| `Seeding.SeedCount` | backend/server.py:201-204 | a successful run on a catalog with unique names adds exactly one product per sample name the catalog lacked |
| `Seeding.SeedSampleCatalog` | backend/server.py:124-208 | seeding with the eight sample products succeeds exactly when all eight description calls succeed. It then leaves every sample name present, and it adds at most eight products |
| `Cart.SetQuantity` | backend/server.py:284-287 | `update_one` by id changes only the quantity of a line carrying that id, and every other line stays as it was |
| `Cart.SetQuantityKeeps` | backend/server.py:284-287 | the update keeps one line per pair, the set of ids and unique ids |
| `Cart.SetQuantityHits` | backend/server.py:284-287 | with unique ids the update changes exactly the line that carries the id |
| `Cart.Upsert` | backend/server.py:276-294 | the answered line belongs to the requested product and user. When the pair already has a line, the cart keeps its length. Otherwise exactly one line with the fresh id and the requested product, user and quantity is appended |
| `Cart.AddDefaultQuantity` | backend/server.py:58-61 | a request that omits `quantity` (default 1) for an existing product appends a line of quantity 1 with the fresh id when the user lacks the product. On a cart with unique ids and one line per pair, it otherwise raises that line's quantity by exactly 1 and changes nothing else |
| `Cart.AddToCart` | backend/server.py:266-296 | never touches the catalog. For quantities within BSON's signed 64-bit range, it fails exactly when no product has the requested id, and then answers a 500 (the re-raised 404) and leaves the store unchanged. Otherwise it answers and stores the upsert of the request |
| `Cart.UpsertKeepsInvariants` | backend/server.py:276-294 | an add keeps at most one line per (product, user) pair, brings in no id but the fresh one, and keeps ids unique when the fresh id is new |
| `Cart.UpsertMerges` | backend/server.py:276-289 | with unique ids, adding a product the user already holds raises that line's quantity by the requested amount and answers the updated line. Every other line is untouched |
| `Cart.UpsertAccumulates` | backend/server.py:276-294 | with unique ids, an add raises the user's total of that product by exactly the requested quantity and leaves every other (product, user) total unchanged |
| `Cart.AddAllKeepsOnePerPair` | backend/server.py:276-294 | any sequence of adds keeps at most one line per (product, user) pair and leaves the catalog unchanged |
| `Cart.AddAllKeepsUniqueIds` | backend/server.py:290-294 | any sequence of adds with fresh, distinct ids keeps line ids unique |
| `Cart.RemoveFromCart` | backend/server.py:318-324 | answers 404 "Cart item not found" and changes nothing exactly when no line has the id. Otherwise it deletes exactly one line carrying the id and keeps the others in order |
| `Cart.RemoveKeepsInvariants` | backend/server.py:318-324 | removal keeps at most one line per (product, user) pair and keeps ids unique |
| `Cart.RemoveExactly` | backend/server.py:321-324 | with unique ids, the lines left are exactly the former lines whose id differs from the removed one |
| `Cart.Enrich` | backend/server.py:305-312 | each entry pairs one of the given lines with its product (the first with that id), and there are no more entries than lines |
| `Cart.EnrichOrdered` | backend/server.py:305-312 | the kept lines appear in stored order |
| `Cart.EnrichComplete` | backend/server.py:305-312 | every line whose product exists is kept |
| `Cart.EnrichAppend` | backend/server.py:305-312 | enrichment works line by line: enriching two runs of lines is enriching each and concatenating |
| `Cart.GetCart` | backend/server.py:298-316 | at most 100 entries, each one of the user's first 100 lines in stored order (a subsequence of them), paired with the first catalog product carrying its product id, as `find_one` returns it |
| `Cart.GetCartFirstLines` | backend/server.py:302-312 | however many lines the user holds, each of the first 100 in stored order whose product exists is returned |
| `Cart.GetCartComplete` | backend/server.py:302-312 | when the user holds at most 100 lines, every line whose product exists is returned |
| `Cart.GetCartIgnoresOthers` | backend/server.py:302 | adding another user's line does not change a user's cart view |
| `Cart.AddThenGetCart` | backend/server.py:290-312 | adding a product the user does not hold yet adds exactly one entry, at the end of that user's cart view, while under the read limit |

## Left out

- MongoDB and motor I/O, `.env` loading, CORS, logging and the shutdown hook. The collections are sequences in stored order, and `find_one` is the first match in that order.
- Driver and network failures inside the guarded handlers, which all become a 500. Only the failures the handlers' own logic produces are modelled.
- All language-model calls: the client, the prompts and `generate_product_description`. Their replies are parameters, with `None` standing for a call that raised. The cart contents used to build the recommendation prompt therefore only shape that parameter.
- The search branch of `GET /products`: the regex built from the term and the model's keywords, and the `$in` tag match. It is the caller-supplied predicate `matchesSearch`, because its meaning lives in MongoDB's regex engine. A failing keyword call in that branch, which the handler turns into a 500, is not modelled.
- `Catalog.GetProducts`: does not model the 500 when the keyword call raises, nor the 500 for a search regex MongoDB cannot compile. The regex (`backend/server.py:228`) joins the search term and the model's keywords without escaping, so a term such as `* shoes` makes the query raise inside the `try`. The predicate `matchesSearch` is total and cannot raise.
- `Catalog.GetRecommendations`: does not model the 500 for a category regex MongoDB cannot compile. The regex (`backend/server.py:256`) embeds a model reply without escaping, so a category such as `* electronics` makes the query raise inside the `try`. The predicate `matches` is total and cannot raise.
- The case-insensitive category regex of `GET /products/recommendations/{user_id}`. It is the caller-supplied predicate `matches`.
- `Text.Lower`: lower-cases ASCII letters only, because Python's full Unicode case mapping is not modelled.
- `chat_with_ai`, `get_categories` and the root route. They are a model round-trip plus one history insert, a `distinct` query and a constant message, with no store logic beyond that.
- `float` prices are opaque reals, and no arithmetic is done on them. `uuid4` ids are fresh-id parameters, and the `created_at`/`added_at` timestamps are dropped.
- The behaviour of motor's `to_list` for negative and zero lengths is assumed: it refuses the first and returns nothing for the second. The driver is not part of this model.
- `Cart.AddToCart`: does not model the 500 for a quantity that BSON cannot store. MongoDB stores integers as signed 64-bit values, so `insert_one` (`backend/server.py:293`) raises for a requested quantity outside [-2^63, 2^63). `update_one` (`backend/server.py:284-287`) raises the same way for a merged sum outside that range, for example after adding 2^63-1 twice. Either error is raised inside the `try`, so the handler answers 500 and stores nothing (`backend/server.py:295-296`). The model's quantities are unbounded integers, so it answers `Ok` in these cases.
- The race between `find_one` and `insert_one`/`update_one` under concurrent requests, which could create duplicate lines. The model is sequential.
- The JSON encoding of responses. `Cart.GetCart` models the payload the handler builds at `backend/server.py:302-314`. Each entry copies the stored document, so it includes MongoDB's `_id`, a BSON `ObjectId`. The route declares no response model (`backend/server.py:298`), so FastAPI's default encoder gets the raw dict. That encoder cannot serialise an `ObjectId`, and it runs after the handler has returned, outside its `try`. As written, the route therefore answers 500 instead of sending the payload whenever the payload is non-empty. The adds are unaffected, because `CartItem(**existing_item)` drops `_id`. This reading of FastAPI's encoder is not part of the model.

=== FILE: cart.dfy ===
/** The cart handlers: `POST /cart`, `DELETE /cart/{item_id}` and
    `GET /cart/{user_id}`, each a transition of the store. */
module Cart {
  import opened Wrappers
  import opened Seqs
  import opened Records
  import opened Catalog

  /** `l` is a line of `userId`'s cart for `productId`. */
  predicate IsLineFor(l: CartLine, productId: string, userId: string)
  {
    l.productId == productId && l.userId == userId
  }

  /** At most one line per (product, user) pair. */
  predicate OnePerPair(cart: seq<CartLine>)
  {
    forall i, j :: 0 <= i < j < |cart| ==>
      !(cart[i].productId == cart[j].productId && cart[i].userId == cart[j].userId)
  }

  /** No two lines share an id. */
  predicate UniqueLineIds(cart: seq<CartLine>)
  {
    forall i, j :: 0 <= i < j < |cart| ==> cart[i].id != cart[j].id
  }

  function LineIds(cart: seq<CartLine>): set<string>
  {
    set l | l in cart :: l.id
  }

  /** `find_one({"product_id": .., "user_id": ..})`. */
  function LineForPair(productId: string, userId: string): CartLine -> bool
  {
    (l: CartLine) => IsLineFor(l, productId, userId)
  }

  /** `find_one({"id": id})` / `delete_one({"id": id})`. */
  function LineWithId(id: string): CartLine -> bool
  {
    (l: CartLine) => l.id == id
  }

  /** `update_one({"id": id}, {"$set": {"quantity": q}})`: the first line with
      that id takes quantity `q`; nothing else changes. */
  function SetQuantity(cart: seq<CartLine>, id: string, q: int): (r: seq<CartLine>)
    ensures |r| == |cart|
    ensures forall j :: 0 <= j < |cart| ==>
              r[j].id == cart[j].id && r[j].productId == cart[j].productId && r[j].userId == cart[j].userId
    ensures forall j :: 0 <= j < |cart| && cart[j].id != id ==> r[j] == cart[j]
  {
    match FirstIndex(cart, LineWithId(id))
    case None => cart
    case Some(j) => cart[j := cart[j].(quantity := q)]
  }

  /** The update keeps every line's id, product and user, so it keeps both
      cart invariants and the set of ids. */
  lemma {:induction false} SetQuantityKeeps(cart: seq<CartLine>, id: string, q: int)
    ensures var r := SetQuantity(cart, id, q);
            && (OnePerPair(cart) ==> OnePerPair(r))
            && (UniqueLineIds(cart) ==> UniqueLineIds(r))
            && LineIds(r) == LineIds(cart)
  {
    var r := SetQuantity(cart, id, q);
    forall x | x in LineIds(r)
      ensures x in LineIds(cart)
    {
      var l :| l in r && l.id == x;
      var j :| 0 <= j < |r| && r[j] == l;
      assert cart[j].id == x;
    }
    forall x | x in LineIds(cart)
      ensures x in LineIds(r)
    {
      var l :| l in cart && l.id == x;
      var j :| 0 <= j < |cart| && cart[j] == l;
      assert r[j].id == x;
    }
  }

  /** With unique ids the update hits exactly the line carrying the id. */
  lemma {:induction false} SetQuantityHits(cart: seq<CartLine>, i: nat, q: int)
    requires UniqueLineIds(cart) && i < |cart|
    ensures SetQuantity(cart, cart[i].id, q) == cart[i := cart[i].(quantity := q)]
  {
    var f := FirstIndex(cart, LineWithId(cart[i].id));
    assert LineWithId(cart[i].id)(cart[i]);
    assert f == Some(i);
  }

  // ---------------------------------------------------------------- add

  /** The cart part of `POST /cart`: merge into the first line the user holds
      for that product (its quantity raised by the requested amount, written
      back by id), or append a new line with the fresh id. Answers the
      resulting line and the new cart. */
  function Upsert(cart: seq<CartLine>, req: AddRequest, freshId: string): (r: (CartLine, seq<CartLine>))
    ensures IsLineFor(r.0, req.productId, req.userId)
    ensures (exists j :: 0 <= j < |cart| && IsLineFor(cart[j], req.productId, req.userId)) ==>
              |r.1| == |cart|
    ensures (forall j :: 0 <= j < |cart| ==> !IsLineFor(cart[j], req.productId, req.userId)) ==>
              && r.0 == CartLine(freshId, req.productId, req.userId, req.quantity)
              && r.1 == cart + [r.0]
  {
    match FirstIndex(cart, LineForPair(req.productId, req.userId))
    case Some(i) =>
      var q := cart[i].quantity + req.quantity;
      (cart[i].(quantity := q), SetQuantity(cart, cart[i].id, q))
    case None =>
      var line := CartLine(freshId, req.productId, req.userId, req.quantity);
      (line, cart + [line])
  }

  /** `POST /cart`. The product must exist: the 404 raised for a missing one
      is caught by the handler's own `except` and answered as a 500, with the
      store unchanged. Otherwise the cart is upserted. */
  function AddToCart(s: Store, req: AddRequest, freshId: string): (r: Reply<CartLine>)
    ensures r.store.products == s.products
    ensures r.result.Err? <==> forall p :: p in s.products ==> p.id != req.productId
    ensures r.result.Err? ==> r.result.error == Internal(Rethrown(ProductNotFound)) && r.store == s
    ensures r.result.Ok? ==> (r.result.value, r.store.cart) == Upsert(s.cart, req, freshId)
  {
    match LookupProduct(s.products, req.productId)
    case None => Reply(Err(Internal(Rethrown(ProductNotFound))), s)
    case Some(_) =>
      var (line, cart) := Upsert(s.cart, req, freshId);
      Reply(Ok(line), s.(cart := cart))
  }

  /** Every upsert keeps at most one line per (product, user) pair, introduces
      no id but the fresh one, and keeps ids unique when that one is fresh. */
  lemma {:induction false} UpsertKeepsInvariants(cart: seq<CartLine>, req: AddRequest, freshId: string)
    ensures var c := Upsert(cart, req, freshId).1;
            && (OnePerPair(cart) ==> OnePerPair(c))
            && LineIds(c) <= LineIds(cart) + {freshId}
            && (UniqueLineIds(cart) && freshId !in LineIds(cart) ==> UniqueLineIds(c))
  {
    match FirstIndex(cart, LineForPair(req.productId, req.userId))
    case Some(i) =>
      SetQuantityKeeps(cart, cart[i].id, cart[i].quantity + req.quantity);
    case None =>
      var line := CartLine(freshId, req.productId, req.userId, req.quantity);
      AppendKeeps(cart, line);
  }

  /** Appending a line for a pair the cart lacks keeps one line per pair;
      appending one with a fresh id keeps ids unique. */
  lemma AppendKeeps(cart: seq<CartLine>, line: CartLine)
    requires forall j :: 0 <= j < |cart| ==> !IsLineFor(cart[j], line.productId, line.userId)
    ensures OnePerPair(cart) ==> OnePerPair(cart + [line])
    ensures LineIds(cart + [line]) == LineIds(cart) + {line.id}
    ensures UniqueLineIds(cart) && line.id !in LineIds(cart) ==> UniqueLineIds(cart + [line])
  {
    assert line.id !in LineIds(cart) ==> forall j :: 0 <= j < |cart| ==> cart[j].id != line.id;
  }

  /** Adding a product the user already holds merges into that line: the
      line's quantity grows by the requested amount, every other line is
      untouched, and the updated line is the answer. */
  lemma {:induction false} UpsertMerges(cart: seq<CartLine>, req: AddRequest, freshId: string, i: nat)
    requires UniqueLineIds(cart) && OnePerPair(cart)
    requires i < |cart| && IsLineFor(cart[i], req.productId, req.userId)
    ensures var line := cart[i].(quantity := cart[i].quantity + req.quantity);
            Upsert(cart, req, freshId) == (line, cart[i := line])
  {
    assert LineForPair(req.productId, req.userId)(cart[i]);
    assert FirstIndex(cart, LineForPair(req.productId, req.userId)) == Some(i);
    SetQuantityHits(cart, i, cart[i].quantity + req.quantity);
  }

  /** A request that leaves out `quantity` adds one unit: a new line of
      quantity 1 for a pair the cart lacks, or one more unit on the line the
      pair already has. */
  lemma AddDefaultQuantity(s: Store, productId: string, userId: string, freshId: string)
    requires exists p :: p in s.products && p.id == productId
    ensures var r := AddToCart(s, DefaultAddRequest(productId, userId), freshId);
            (forall j :: 0 <= j < |s.cart| ==> !IsLineFor(s.cart[j], productId, userId)) ==>
              && r.result == Ok(CartLine(freshId, productId, userId, 1))
              && r.store.cart == s.cart + [CartLine(freshId, productId, userId, 1)]
    ensures forall i :: 0 <= i < |s.cart| && IsLineFor(s.cart[i], productId, userId) &&
                        UniqueLineIds(s.cart) && OnePerPair(s.cart) ==>
              var line := s.cart[i].(quantity := s.cart[i].quantity + 1);
              AddToCart(s, DefaultAddRequest(productId, userId), freshId) == Reply(Ok(line), s.(cart := s.cart[i := line]))
  {
    var req := DefaultAddRequest(productId, userId);
    forall i | 0 <= i < |s.cart| && IsLineFor(s.cart[i], productId, userId) &&
               UniqueLineIds(s.cart) && OnePerPair(s.cart)
      ensures var line := s.cart[i].(quantity := s.cart[i].quantity + 1);
              AddToCart(s, req, freshId) == Reply(Ok(line), s.(cart := s.cart[i := line]))
    {
      UpsertMerges(s.cart, req, freshId, i);
    }
  }

  /** The total quantity `userId` holds of `productId`, over all lines. */
  function QuantityOf(cart: seq<CartLine>, productId: string, userId: string): int
  {
    if |cart| == 0 then 0
    else (if IsLineFor(cart[0], productId, userId) then cart[0].quantity else 0)
         + QuantityOf(cart[1..], productId, userId)
  }

  function Contribution(l: CartLine, productId: string, userId: string): int
  {
    if IsLineFor(l, productId, userId) then l.quantity else 0
  }

  lemma {:induction false} QuantityOfUpdate(cart: seq<CartLine>, i: nat, l: CartLine, productId: string, userId: string)
    requires i < |cart|
    ensures QuantityOf(cart[i := l], productId, userId)
            == QuantityOf(cart, productId, userId) - Contribution(cart[i], productId, userId) + Contribution(l, productId, userId)
    decreases i
  {
    if i > 0 {
      assert cart[i := l][1..] == cart[1..][i - 1 := l];
      QuantityOfUpdate(cart[1..], i - 1, l, productId, userId);
    }
  }

  lemma {:induction false} QuantityOfAppend(cart: seq<CartLine>, l: CartLine, productId: string, userId: string)
    ensures QuantityOf(cart + [l], productId, userId)
            == QuantityOf(cart, productId, userId) + Contribution(l, productId, userId)
    decreases |cart|
  {
    if |cart| == 0 {
      assert (cart + [l])[1..] == [];
    } else {
      assert (cart + [l])[1..] == cart[1..] + [l];
      QuantityOfAppend(cart[1..], l, productId, userId);
    }
  }

  /** `after` holds `q` more of (`productId`, `userId`) than `before`, and
      the same of every other pair. */
  ghost predicate LedgerStep(before: seq<CartLine>, after: seq<CartLine>, productId: string, userId: string, q: int)
  {
    && QuantityOf(after, productId, userId) == QuantityOf(before, productId, userId) + q
    && forall pid, uid :: (pid, uid) != (productId, userId) ==>
         QuantityOf(after, pid, uid) == QuantityOf(before, pid, uid)
  }

  lemma {:induction false} LedgerUpdate(cart: seq<CartLine>, i: nat, q: int)
    requires i < |cart|
    ensures LedgerStep(cart, cart[i := cart[i].(quantity := cart[i].quantity + q)], cart[i].productId, cart[i].userId, q)
  {
    var line := cart[i].(quantity := cart[i].quantity + q);
    forall pid, uid
      ensures QuantityOf(cart[i := line], pid, uid)
              == QuantityOf(cart, pid, uid) - Contribution(cart[i], pid, uid) + Contribution(line, pid, uid)
    {
      QuantityOfUpdate(cart, i, line, pid, uid);
    }
  }

  lemma {:induction false} LedgerAppend(cart: seq<CartLine>, line: CartLine)
    ensures LedgerStep(cart, cart + [line], line.productId, line.userId, line.quantity)
  {
    forall pid, uid
      ensures QuantityOf(cart + [line], pid, uid) == QuantityOf(cart, pid, uid) + Contribution(line, pid, uid)
    {
      QuantityOfAppend(cart, line, pid, uid);
    }
  }

  /** The cart as a ledger: an upsert raises the quantity the user holds of
      that product by exactly the requested amount, and leaves every other
      (product, user) total as it was. */
  lemma {:induction false} UpsertAccumulates(cart: seq<CartLine>, req: AddRequest, freshId: string)
    requires UniqueLineIds(cart)
    ensures LedgerStep(cart, Upsert(cart, req, freshId).1, req.productId, req.userId, req.quantity)
  {
    match FirstIndex(cart, LineForPair(req.productId, req.userId))
    case Some(i) =>
      SetQuantityHits(cart, i, cart[i].quantity + req.quantity);
      LedgerUpdate(cart, i, req.quantity);
    case None =>
      LedgerAppend(cart, CartLine(freshId, req.productId, req.userId, req.quantity));
  }

  /** A run of adds, each with the fresh id its request was given. */
  function AddAll(s: Store, steps: seq<(AddRequest, string)>): Store
    decreases |steps|
  {
    if |steps| == 0 then s
    else AddAll(AddToCart(s, steps[0].0, steps[0].1).store, steps[1..])
  }

  /** Any run of adds keeps at most one line per (product, user) pair. */
  lemma {:induction false} AddAllKeepsOnePerPair(s: Store, steps: seq<(AddRequest, string)>)
    requires OnePerPair(s.cart)
    ensures OnePerPair(AddAll(s, steps).cart)
    ensures AddAll(s, steps).products == s.products
    decreases |steps|
  {
    if |steps| > 0 {
      UpsertKeepsInvariants(s.cart, steps[0].0, steps[0].1);
      AddAllKeepsOnePerPair(AddToCart(s, steps[0].0, steps[0].1).store, steps[1..]);
    }
  }

  /** Any run of adds whose ids are fresh and distinct keeps line ids unique. */
  lemma {:induction false} AddAllKeepsUniqueIds(s: Store, steps: seq<(AddRequest, string)>)
    requires UniqueLineIds(s.cart)
    requires forall k :: 0 <= k < |steps| ==> steps[k].1 !in LineIds(s.cart)
    requires forall k, m :: 0 <= k < m < |steps| ==> steps[k].1 != steps[m].1
    ensures UniqueLineIds(AddAll(s, steps).cart)
    decreases |steps|
  {
    if |steps| > 0 {
      var s1 := AddToCart(s, steps[0].0, steps[0].1).store;
      UpsertKeepsInvariants(s.cart, steps[0].0, steps[0].1);
      assert forall k :: 0 <= k < |steps[1..]| ==> steps[1..][k].1 == steps[k + 1].1;
      AddAllKeepsUniqueIds(s1, steps[1..]);
    }
  }

  // ---------------------------------------------------------------- remove

  /** `DELETE /cart/{item_id}`: delete the first line with that id, or answer
      404 "Cart item not found" and change nothing. */
  function RemoveFromCart(s: Store, itemId: string): (r: Reply<()>)
    ensures r.store.products == s.products
    ensures r.result.Err? <==> forall l :: l in s.cart ==> l.id != itemId
    ensures r.result.Err? ==> r.result.error == CartItemNotFound && Status(r.result.error) == 404 && r.store == s
    ensures r.result.Ok? ==> exists i :: 0 <= i < |s.cart| && s.cart[i].id == itemId
                                         && r.store.cart == s.cart[..i] + s.cart[i + 1..]
    ensures r.result.Ok? ==> |r.store.cart| == |s.cart| - 1 && IsSubseq(r.store.cart, s.cart)
  {
    match FirstIndex(s.cart, LineWithId(itemId))
    case None => Reply(Err(CartItemNotFound), s)
    case Some(i) =>
      var cart := s.cart[..i] + s.cart[i + 1..];
      DeleteIsSubseq(s.cart, i);
      Reply(Ok(()), s.(cart := cart))
  }

  /** Removal keeps both cart invariants. */
  lemma {:induction false} RemoveKeepsInvariants(s: Store, itemId: string)
    ensures var c := RemoveFromCart(s, itemId).store.cart;
            && (OnePerPair(s.cart) ==> OnePerPair(c))
            && (UniqueLineIds(s.cart) ==> UniqueLineIds(c))
  {
    match FirstIndex(s.cart, LineWithId(itemId))
    case None =>
    case Some(i) =>
      assert RemoveFromCart(s, itemId).store.cart == s.cart[..i] + s.cart[i + 1..];
      DeleteKeeps(s.cart, i);
  }

  lemma DeleteKeeps(cart: seq<CartLine>, i: nat)
    requires i < |cart|
    ensures OnePerPair(cart) ==> OnePerPair(cart[..i] + cart[i + 1..])
    ensures UniqueLineIds(cart) ==> UniqueLineIds(cart[..i] + cart[i + 1..])
  {
    var c := cart[..i] + cart[i + 1..];
    assert forall j :: 0 <= j < i ==> c[j] == cart[j];
    assert forall j :: i <= j < |c| ==> c[j] == cart[j + 1];
  }

  /** With unique ids, removal deletes exactly the line with that id. */
  lemma {:induction false} RemoveExactly(s: Store, itemId: string)
    requires UniqueLineIds(s.cart)
    ensures var r := RemoveFromCart(s, itemId);
            forall l :: l in r.store.cart <==> l in s.cart && l.id != itemId
  {
    match FirstIndex(s.cart, LineWithId(itemId))
    case None =>
    case Some(i) =>
      var cart := s.cart[..i] + s.cart[i + 1..];
      assert RemoveFromCart(s, itemId).store.cart == cart;
      DeletedElements(s.cart, i);
  }

  /** Deleting index `i` of a cart with unique ids keeps exactly the lines
      whose id differs from that of line `i`. */
  lemma {:induction false} DeletedElements(cart: seq<CartLine>, i: nat)
    requires UniqueLineIds(cart) && i < |cart|
    ensures forall l :: l in cart[..i] + cart[i + 1..] <==> l in cart && l.id != cart[i].id
  {
    var rest := cart[..i] + cart[i + 1..];
    forall l | l in rest
      ensures l in cart && l.id != cart[i].id
    {
      var j :| 0 <= j < |rest| && rest[j] == l;
      if j < i {
        assert rest[j] == cart[j];
      } else {
        assert rest[j] == cart[j + 1];
      }
    }
    forall l | l in cart && l.id != cart[i].id
      ensures l in rest
    {
      var j :| 0 <= j < |cart| && cart[j] == l;
      if j < i {
        assert rest[j] == l;
      } else {
        assert j != i;
        assert rest[j - 1] == l;
      }
    }
  }

  // ---------------------------------------------------------------- read

  /** `find({"user_id": ..}).to_list(100)` reads at most this many lines. */
  const CART_READ_LIMIT: nat := 100

  function OwnedBy(userId: string): CartLine -> bool
  {
    (l: CartLine) => l.userId == userId
  }

  function LinesOf(r: seq<EnrichedLine>): (lines: seq<CartLine>)
    ensures |lines| == |r| && forall k :: 0 <= k < |r| ==> lines[k] == r[k].line
  {
    seq(|r|, k requires 0 <= k < |r| => r[k].line)
  }

  /** Pair each line with its product, dropping the lines whose product no
      longer exists. */
  function Enrich(lines: seq<CartLine>, products: seq<Product>): (r: seq<EnrichedLine>)
    ensures |r| <= |lines|
    ensures forall e :: e in r ==> e.line in lines && LookupProduct(products, e.line.productId) == Some(e.product)
    decreases |lines|
  {
    if |lines| == 0 then []
    else
      var rest := Enrich(lines[1..], products);
      assert forall l :: l in lines[1..] ==> l in lines;
      match LookupProduct(products, lines[0].productId)
      case None => rest
      case Some(p) => [EnrichedLine(lines[0], p)] + rest
  }

  /** Enrichment keeps the stored order of the lines it keeps. */
  lemma {:induction false} EnrichOrdered(lines: seq<CartLine>, products: seq<Product>)
    ensures IsSubseq(LinesOf(Enrich(lines, products)), lines)
    decreases |lines|
  {
    if |lines| > 0 {
      EnrichOrdered(lines[1..], products);
      var rest := Enrich(lines[1..], products);
      match LookupProduct(products, lines[0].productId)
      case None =>
        assert Enrich(lines, products) == rest;
      case Some(p) =>
        var r := [EnrichedLine(lines[0], p)] + rest;
        assert Enrich(lines, products) == r;
        assert LinesOf(r)[1..] == LinesOf(rest);
    }
  }

  /** Enrichment keeps every line whose product exists. */
  lemma {:induction false} EnrichComplete(lines: seq<CartLine>, products: seq<Product>, l: CartLine)
    requires l in lines && LookupProduct(products, l.productId).Some?
    ensures exists e :: e in Enrich(lines, products) && e.line == l
    decreases |lines|
  {
    var rest := Enrich(lines[1..], products);
    if l == lines[0] {
      var e := EnrichedLine(l, LookupProduct(products, l.productId).value);
      assert Enrich(lines, products) == [e] + rest;
      assert e in Enrich(lines, products);
    } else {
      assert l in lines[1..];
      EnrichComplete(lines[1..], products, l);
      var e :| e in rest && e.line == l;
      assert forall x :: x in rest ==> x in Enrich(lines, products);
    }
  }

  lemma {:induction false} EnrichAppend(a: seq<CartLine>, b: seq<CartLine>, products: seq<Product>)
    ensures Enrich(a + b, products) == Enrich(a, products) + Enrich(b, products)
    decreases |a|
  {
    if |a| == 0 {
      assert a + b == b;
    } else {
      assert (a + b)[0] == a[0];
      assert (a + b)[1..] == a[1..] + b;
      EnrichAppend(a[1..], b, products);
    }
  }

  /** `GET /cart/{user_id}`: the user's lines in stored order (at most the
      first 100 read), each with its product, orphaned lines dropped. */
  function GetCart(s: Store, userId: string): (r: seq<EnrichedLine>)
    ensures |r| <= CART_READ_LIMIT
    ensures forall e :: e in r ==>
              && e.line in s.cart && e.line.userId == userId
              && e.product in s.products && e.product.id == e.line.productId
              && LookupProduct(s.products, e.line.productId) == Some(e.product)
    ensures IsSubseq(LinesOf(r), s.cart)
    ensures IsSubseq(LinesOf(r), Take(Filter(s.cart, OwnedBy(userId)), CART_READ_LIMIT))
  {
    var owned := Filter(s.cart, OwnedBy(userId));
    var read := Take(owned, CART_READ_LIMIT);
    var r := Enrich(read, s.products);
    assert forall l :: l in read ==> l in owned;
    PrefixIsSubseq(owned, |read|);
    SubseqTrans(read, owned, s.cart);
    EnrichOrdered(read, s.products);
    SubseqTrans(LinesOf(r), read, s.cart);
    r
  }

  /** When the user holds at most 100 lines, every line whose product exists is shown. */
  /** Whatever the number of lines a user holds, each of the first 100 of
      them in stored order whose product exists is returned. */
  lemma GetCartFirstLines(s: Store, userId: string)
    ensures var owned := Filter(s.cart, OwnedBy(userId));
            forall i :: 0 <= i < |owned| && i < CART_READ_LIMIT
                        && LookupProduct(s.products, owned[i].productId).Some? ==>
              exists e :: e in GetCart(s, userId) && e.line == owned[i]
  {
    var owned := Filter(s.cart, OwnedBy(userId));
    var read := Take(owned, CART_READ_LIMIT);
    forall i | 0 <= i < |owned| && i < CART_READ_LIMIT && LookupProduct(s.products, owned[i].productId).Some?
      ensures exists e :: e in GetCart(s, userId) && e.line == owned[i]
    {
      assert read[i] == owned[i];
      EnrichComplete(read, s.products, owned[i]);
      assert GetCart(s, userId) == Enrich(read, s.products);
    }
  }

  lemma {:induction false} GetCartComplete(s: Store, userId: string)
    requires |Filter(s.cart, OwnedBy(userId))| <= CART_READ_LIMIT
    ensures forall l :: l in s.cart && l.userId == userId && (exists p :: p in s.products && p.id == l.productId) ==>
              exists e :: e in GetCart(s, userId) && e.line == l
  {
    forall l | l in s.cart && l.userId == userId && (exists p :: p in s.products && p.id == l.productId)
      ensures exists e :: e in GetCart(s, userId) && e.line == l
    {
      var p :| p in s.products && p.id == l.productId;
      assert LookupProduct(s.products, l.productId).Some?;
      assert OwnedBy(userId)(l);
      var owned := Filter(s.cart, OwnedBy(userId));
      assert l in owned;
      assert Take(owned, CART_READ_LIMIT) == owned;
      var r := Enrich(owned, s.products);
      EnrichComplete(owned, s.products, l);
      assert GetCart(s, userId) == r;
    }
  }

  /** Another user's lines never show in this user's cart. */
  lemma {:induction false} GetCartIgnoresOthers(s: Store, userId: string, l: CartLine)
    requires l.userId != userId
    ensures GetCart(s.(cart := s.cart + [l]), userId) == GetCart(s, userId)
  {
    FilterAppend(s.cart, [l], OwnedBy(userId));
    assert Filter([l], OwnedBy(userId)) == [] by {
      assert [l][1..] == [];
    }
    assert Filter(s.cart, OwnedBy(userId)) + [] == Filter(s.cart, OwnedBy(userId));
  }

  /** Adding a product the user does not hold yet shows up as one more line at
      the end of that user's cart (while the cart is under the read limit). */
  lemma {:induction false} AddThenGetCart(s: Store, req: AddRequest, freshId: string, p: Product)
    requires p in s.products && p.id == req.productId
    requires forall j :: 0 <= j < |s.cart| ==> !IsLineFor(s.cart[j], req.productId, req.userId)
    requires |Filter(s.cart, OwnedBy(req.userId))| < CART_READ_LIMIT
    ensures var r := AddToCart(s, req, freshId);
            && r.result.Ok?
            && GetCart(r.store, req.userId)
               == GetCart(s, req.userId) + [EnrichedLine(r.result.value, LookupProduct(s.products, p.id).value)]
  {
    var r := AddToCart(s, req, freshId);
    var line := CartLine(freshId, req.productId, req.userId, req.quantity);
    assert r.store.cart == s.cart + [line];
    FilterAppend(s.cart, [line], OwnedBy(req.userId));
    assert Filter([line], OwnedBy(req.userId)) == [line] by {
      assert [line][1..] == [];
    }
    var owned := Filter(s.cart, OwnedBy(req.userId));
    EnrichAppend(owned, [line], s.products);
    assert Enrich([line], s.products) == [EnrichedLine(line, LookupProduct(s.products, p.id).value)] by {
      assert [line][1..] == [];
    }
  }
}

=== FILE: catalog.dfy ===
/** Reads of the `products` collection: single lookup, the filtered listing
    and the assembly of recommendations. */
module Catalog {
  import opened Wrappers
  import opened Seqs
  import opened Records
  import opened Text

  /** `db.products.find_one({"id": id})`: the first product carrying that id. */
  function LookupProduct(products: seq<Product>, id: string): (r: Option<Product>)
    ensures r.Some? ==> r.value in products && r.value.id == id
    ensures r.None? <==> forall p :: p in products ==> p.id != id
    ensures r.Some? ==> exists i :: 0 <= i < |products| && products[i] == r.value
                                    && forall j :: 0 <= j < i ==> products[j].id != id
  {
    match FirstIndex(products, (p: Product) => p.id == id)
    case None => None
    case Some(i) => Some(products[i])
  }

  /** `GET /products/{product_id}`. */
  function GetProduct(s: Store, id: string): (r: Result<Product, HttpError>)
    ensures r.Err? <==> forall p :: p in s.products ==> p.id != id
    ensures r.Err? ==> r.error == ProductNotFound && Status(r.error) == 404
    ensures r.Ok? ==> r.value in s.products && r.value.id == id
  {
    match LookupProduct(s.products, id)
    case None => Err(ProductNotFound)
    case Some(p) => Ok(p)
  }

  // ---------------------------------------------------------------- listing

  /** The page size when the client gives none, and the largest one accepted. */
  const DEFAULT_LIMIT: int := 20
  const MAX_LIMIT: int := 100

  /** The query `GET /products` builds: the category clause is added only for a
      non-empty category, the search clause only for a non-empty search term.
      The search clause (a regex over name and description, or a tag among the
      term and the language model's keywords) is given as `matchesSearch`. */
  function Selector(category: Option<string>, search: Option<string>, matchesSearch: Product -> bool): Product -> bool
  {
    (p: Product) =>
      && (category.Some? && category.value != "" ==> p.category == category.value)
      && (search.Some? && search.value != "" ==> matchesSearch(p))
  }

  /** `GET /products?category=..&search=..&limit=..`: the first `limit`
      selected products in stored order. A `limit` above 100 is rejected by
      request validation; a negative one makes the driver's `to_list` raise,
      which the handler turns into a 500. */
  function GetProducts(s: Store, category: Option<string>, search: Option<string>, limit: int,
                       matchesSearch: Product -> bool): (r: Result<seq<Product>, HttpError>)
    ensures r.Err? <==> limit < 0 || MAX_LIMIT < limit
    ensures MAX_LIMIT < limit ==> r == Err(LimitTooLarge)
    ensures limit < 0 ==> r == Err(Internal(NegativeLength))
    ensures r.Ok? ==> |r.value| <= limit <= MAX_LIMIT
    ensures r.Ok? && category.Some? && category.value != "" ==>
              forall p :: p in r.value ==> p.category == category.value
    ensures r.Ok? && search.Some? && search.value != "" ==>
              forall p :: p in r.value ==> matchesSearch(p)
    ensures r.Ok? ==> IsSubseq(r.value, s.products)
    ensures r.Ok? ==> r.value <= Filter(s.products, Selector(category, search, matchesSearch))
    ensures r.Ok? ==> var selected := Filter(s.products, Selector(category, search, matchesSearch));
            |r.value| == if |selected| <= limit then |selected| else limit
    ensures r.Ok? && |Filter(s.products, Selector(category, search, matchesSearch))| <= limit ==>
              forall p :: p in s.products && Selector(category, search, matchesSearch)(p) ==> p in r.value
  {
    if MAX_LIMIT < limit then Err(LimitTooLarge)
    else if limit < 0 then Err(Internal(NegativeLength))
    else
      var selected := Filter(s.products, Selector(category, search, matchesSearch));
      var page := Take(selected, limit);
      assert forall p :: p in page ==> p in selected && Selector(category, search, matchesSearch)(p);
      PrefixIsSubseq(selected, |page|);
      SubseqTrans(page, selected, s.products);
      Ok(page)
  }

  /** `GET /products` as the route receives it: `limit` is optional and
      defaults to 20 when the client gives none. */
  function ListProducts(s: Store, category: Option<string>, search: Option<string>, limit: Option<int>,
                        matchesSearch: Product -> bool): (r: Result<seq<Product>, HttpError>)
    ensures limit.Some? ==> r == GetProducts(s, category, search, limit.value, matchesSearch)
    ensures limit.None? ==> r.Ok? && |r.value| <= DEFAULT_LIMIT
    ensures limit.None? ==> var selected := Filter(s.products, Selector(category, search, matchesSearch));
            r.value == (if |selected| <= DEFAULT_LIMIT then selected else selected[..DEFAULT_LIMIT])
  {
    GetProducts(s, category, search, if limit.Some? then limit.value else DEFAULT_LIMIT, matchesSearch)
  }

  /** A prefix is a subsequence. */
  lemma {:induction false} PrefixIsSubseq<T>(s: seq<T>, n: nat)
    requires n <= |s|
    ensures IsSubseq(s[..n], s)
  {
    SubseqRefl(s[..n]);
    SubseqOfPrefix(s[..n], s[..n], s[n..]);
    assert s[..n] + s[n..] == s;
  }

  /** Filtering with a predicate every element satisfies keeps everything. */
  lemma {:induction false} FilterKeepsAll<T>(s: seq<T>, p: T -> bool)
    requires forall x :: x in s ==> p(x)
    ensures Filter(s, p) == s
    decreases |s|
  {
    if |s| > 0 {
      assert forall x :: x in s[1..] ==> x in s;
      FilterKeepsAll(s[1..], p);
      assert s == [s[0]] + s[1..];
    }
  }

  /** Without a category or a search term (or with empty ones) the listing is
      the first `limit` products of the catalog in stored order. */
  lemma {:induction false} UnfilteredListing(s: Store, category: Option<string>, search: Option<string>, limit: int,
                          matchesSearch: Product -> bool)
    requires category.None? || category.value == ""
    requires search.None? || search.value == ""
    requires 0 <= limit <= MAX_LIMIT
    ensures GetProducts(s, category, search, limit, matchesSearch) == Ok(Take(s.products, limit))
  {
    FilterKeepsAll(s.products, Selector(category, search, matchesSearch));
  }

  // ---------------------------------------------------------------- recommendations

  /** How many products each recommended category contributes. */
  const PER_CATEGORY: nat := 2

  /** The products of one recommended category: `find` with the
      case-insensitive category regex, given here as `matches`, limited to two. */
  function CategoryPicks(products: seq<Product>, category: string, matches: (string, string) -> bool): (r: seq<Product>)
    ensures |r| <= PER_CATEGORY
    ensures forall p :: p in r ==> p in products && matches(category, p.category)
    ensures r <= Filter(products, (p: Product) => matches(category, p.category))
    ensures var matching := Filter(products, (p: Product) => matches(category, p.category));
            |r| == if |matching| <= PER_CATEGORY then |matching| else PER_CATEGORY
    ensures var matching := Filter(products, (p: Product) => matches(category, p.category));
            |matching| <= PER_CATEGORY ==> r == matching
  {
    Take(Filter(products, (p: Product) => matches(category, p.category)), PER_CATEGORY)
  }

  /** Each recommended category's picks, concatenated in category order. */
  function RecommendFor(products: seq<Product>, categories: seq<string>, matches: (string, string) -> bool): (r: seq<Product>)
    ensures |r| <= PER_CATEGORY * |categories|
    ensures forall p :: p in r ==> p in products && exists c :: c in categories && matches(c, p.category)
  {
    if |categories| == 0 then []
    else
      var head := CategoryPicks(products, categories[0], matches);
      var rest := RecommendFor(products, categories[1..], matches);
      assert forall p :: p in head ==> matches(categories[0], p.category);
      assert forall c :: c in categories[1..] ==> c in categories;
      head + rest
  }

  /** Recommending for two lists of categories one after the other is the
      concatenation of the two recommendations. */
  lemma {:induction false} RecommendForAppend(products: seq<Product>, c1: seq<string>, c2: seq<string>,
                                              matches: (string, string) -> bool)
    ensures RecommendFor(products, c1 + c2, matches)
            == RecommendFor(products, c1, matches) + RecommendFor(products, c2, matches)
    decreases |c1|
  {
    if |c1| == 0 {
      assert c1 + c2 == c2;
    } else {
      assert (c1 + c2)[0] == c1[0];
      assert (c1 + c2)[1..] == c1[1..] + c2;
      RecommendForAppend(products, c1[1..], c2, matches);
    }
  }

  /** One category contributes the first (at most two) matching products of the catalog. */
  lemma {:induction false} RecommendForOne(products: seq<Product>, category: string, matches: (string, string) -> bool)
    ensures var r := RecommendFor(products, [category], matches);
            && r == CategoryPicks(products, category, matches)
            && (|Filter(products, (p: Product) => matches(category, p.category))| >= PER_CATEGORY ==> |r| == PER_CATEGORY)
  {
    assert [category][1..] == [];
    var r := RecommendFor(products, [category], matches);
    assert r == CategoryPicks(products, category, matches) + [];
  }

  /** The body of `GET /products/recommendations/{user_id}`. */
  datatype Recommendations = Recommendations(products: seq<Product>, categories: seq<string>)

  /** `GET /products/recommendations/{user_id}`, given the language model's
      reply (`None` when the call raised). The prompt, built from the user's
      cart, only shapes that reply and is not modelled. */
  function GetRecommendations(s: Store, reply: Option<string>, matches: (string, string) -> bool)
    : (r: Result<Recommendations, HttpError>)
    ensures r.Err? <==> reply.None?
    ensures r.Err? ==> r.error == Internal(LlmFailed)
    ensures r.Ok? ==> r.value.categories == ParseCategories(reply.value)
    ensures r.Ok? ==> |r.value.categories| == multiset(reply.value)[','] + 1
    ensures r.Ok? ==> r.value.products == RecommendFor(s.products, r.value.categories, matches)
    ensures r.Ok? ==> |r.value.products| <= PER_CATEGORY * |r.value.categories|
    ensures r.Ok? ==> forall p :: p in r.value.products ==>
              p in s.products && exists c :: c in r.value.categories && matches(c, p.category)
  {
    match reply
    case None => Err(Internal(LlmFailed))
    case Some(text) =>
      var categories := ParseCategories(text);
      Ok(Recommendations(RecommendFor(s.products, categories, matches), categories))
  }
}

=== FILE: records.dfy ===
/** The records the API stores and returns, the errors it raises, and the
    store that every handler reads and transforms. */
module Records {
  import opened Wrappers

  /** A catalog entry. The price is kept as an opaque value; the creation
      timestamp is not modelled. */
  datatype Product = Product(
    id: string,
    name: string,
    description: string,
    price: real,
    category: string,
    imageUrl: string,
    tags: seq<string>,
    inStock: bool)

  /** One line of a user's cart: `quantity` units of `productId` for `userId`.
      The pydantic model puts no bound on the quantity, so it is any integer. */
  datatype CartLine = CartLine(id: string, productId: string, userId: string, quantity: int)

  /** The body of a `POST /cart` request. */
  datatype AddRequest = AddRequest(productId: string, userId: string, quantity: int)

  /** The quantity a request carries when the client leaves it out. */
  const DEFAULT_QUANTITY: int := 1

  /** A request body that omits `quantity`. */
  function DefaultAddRequest(productId: string, userId: string): AddRequest
  {
    AddRequest(productId, userId, DEFAULT_QUANTITY)
  }

  /** A cart line as `GET /cart/{user_id}` returns it: the stored line with
      its product embedded. */
  datatype EnrichedLine = EnrichedLine(line: CartLine, product: Product)

  /** Why a foreign call inside a guarded handler failed. */
  datatype Fault =
    | LlmFailed                    // the language-model call raised
    | NegativeLength               // the driver refused a negative `to_list` length
    | Rethrown(inner: HttpError)   // an HTTPException raised inside the `try`

  /** The errors the API answers with. */
  datatype HttpError =
    | ProductNotFound       // 404 "Product not found"
    | CartItemNotFound      // 404 "Cart item not found"
    | LimitTooLarge         // 422: query parameter `limit` above its bound
    | Internal(cause: Fault) // 500: anything caught by a handler's generic `except`

  /** The HTTP status code each error is sent with. */
  function Status(e: HttpError): int
  {
    match e
    case ProductNotFound => 404
    case CartItemNotFound => 404
    case LimitTooLarge => 422
    case Internal(_) => 500
  }

  /** The `products` and `cart` collections, each in stored (natural) order. */
  datatype Store = Store(products: seq<Product>, cart: seq<CartLine>)

  /** What a mutating handler produces: its answer and the store afterwards. */
  datatype Reply<+T> = Reply(result: Result<T, HttpError>, store: Store)
}

=== FILE: seeding.dfy ===
/** `POST /products/seed`: insert each sample product whose name is not yet
    in the catalog. */
module Seeding {
  import opened Wrappers
  import opened Seqs
  import opened Records

  /** A sample product before its description and id are generated. */
  datatype Sample = Sample(name: string, price: real, category: string, imageUrl: string, tags: seq<string>)

  /** The eight products the seeding handler offers, in order. */
  const SAMPLE_PRODUCTS: seq<Sample> := [
    HEADPHONES, LAPTOP, TRACKSUIT, BAG_SET,
    SHELF_SYSTEM, DECOR_SET, SMART_WATCH, FURNITURE
  ]

  const HEADPHONES: Sample :=
    Sample("Wireless Noise-Cancelling Headphones", 299.99, "electronics",
    "https://images.unsplash.com/photo-1498049794561-7780e7231661?crop=entropy&cs=srgb&fm=jpg&ixid=M3w3NDQ2NDF8MHwxfHNlYXJjaHwxfHxlbGVjdHJvbmljc3xlbnwwfHx8fDE3NTc5MDE4ODZ8MA&ixlib=rb-4.1.0&q=85",
    ["wireless", "noise-cancelling", "audio", "premium"])
  const LAPTOP: Sample :=
    Sample("Smart Laptop Pro", 1299.99, "electronics",
    "https://images.unsplash.com/photo-1550009158-9ebf69173e03?crop=entropy&cs=srgb&fm=jpg&ixid=M3w3NDQ2NDF8MHwxfHNlYXJjaHw0fHxlbGVjdHJvbmljc3xlbnwwfHx8fDE3NTc5MDE4ODZ8MA&ixlib=rb-4.1.0&q=85",
    ["laptop", "professional", "high-performance", "portable"])
  const TRACKSUIT: Sample :=
    Sample("Premium Fashion Tracksuit", 149.99, "fashion",
    "https://images.unsplash.com/photo-1515886657613-9f3515b0c78f?crop=entropy&cs=srgb&fm=jpg&ixid=M3w3NTY2NzF8MHwxfHNlYXJjaHwxfHxmYXNoaW9ufGVufDB8fHx8MTc1Nzg2NTgxNnww&ixlib=rb-4.1.0&q=85",
    ["tracksuit", "comfortable", "stylish", "casual"])
  const BAG_SET: Sample :=
    Sample("Designer Shopping Bag Set", 89.99, "fashion",
    "https://images.unsplash.com/photo-1483985988355-763728e1935b?crop=entropy&cs=srgb&fm=jpg&ixid=M3w3NTY2NzF8MHwxfHNlYXJjaHwyfHxmYXNoaW9ufGVufDB8fHx8MTc1Nzg2NTgxNnww&ixlib=rb-4.1.0&q=85",
    ["bags", "designer", "shopping", "accessories"])
  const SHELF_SYSTEM: Sample :=
    Sample("Modern Home Shelf System", 199.99, "home",
    "https://images.unsplash.com/photo-1524634126442-357e0eac3c14?crop=entropy&cs=srgb&fm=jpg&ixid=M3w3NDQ2NDF8MHwxfHNlYXJjaHwxfHxob21lJTIwcHJvZHVjdHN8ZW58MHx8fHwxNzU3OTAxODk1fDA&ixlib=rb-4.1.0&q=85",
    ["shelving", "modern", "storage", "minimalist"])
  const DECOR_SET: Sample :=
    Sample("Ceramic Home Decor Set", 79.99, "home",
    "https://images.unsplash.com/photo-1514237487632-b60bc844a47d?crop=entropy&cs=srgb&fm=jpg&ixid=M3w3NDQ2NDF8MHwxfHNlYXJjaHwyfHxob21lJTIwcHJvZHVjdHN8ZW58MHx8fHwxNzU3OTAxODk1fDA&ixlib=rb-4.1.0&q=85",
    ["ceramic", "decor", "minimalist", "artistic"])
  const SMART_WATCH: Sample :=
    Sample("Smart Watch Pro", 399.99, "electronics",
    "https://images.pexels.com/photos/356056/pexels-photo-356056.jpeg",
    ["smartwatch", "fitness", "technology", "premium"])
  const FURNITURE: Sample :=
    Sample("Contemporary Furniture Piece", 599.99, "home",
    "https://images.unsplash.com/photo-1467043153537-a4fba2cd39ef?crop=entropy&cs=srgb&fm=jpg&ixid=M3w3NDQ2NDF8MHwxfHNlYXJjaHwzfHxob21lJTIwcHJvZHVjdHN8ZW58MHx8fHwxNzU3OTAxODk1fDA&ixlib=rb-4.1.0&q=85",
    ["furniture", "contemporary", "design", "quality"])

  /** The names present in the catalog. */
  function Names(products: seq<Product>): set<string>
    decreases |products|
  {
    if |products| == 0 then {}
    else Names(products[..|products| - 1]) + {products[|products| - 1].name}
  }

  /** No two products share a name. */
  predicate UniqueNames(products: seq<Product>)
  {
    forall i, j :: 0 <= i < j < |products| ==> products[i].name != products[j].name
  }

  /** The names of the samples from index `k` on. */
  function SampleNames(samples: seq<Sample>, k: nat): set<string>
    decreases |samples| - k
  {
    if k >= |samples| then {} else {samples[k].name} + SampleNames(samples, k + 1)
  }

  lemma NamesAppend(products: seq<Product>, p: Product)
    ensures Names(products + [p]) == Names(products) + {p.name}
  {
    assert (products + [p])[..|products|] == products;
  }

  /** A name is present exactly when some product carries it. */
  lemma {:induction false} NamesMember(products: seq<Product>, n: string)
    ensures n in Names(products) <==> exists i :: 0 <= i < |products| && products[i].name == n
    decreases |products|
  {
    if |products| > 0 {
      var init := products[..|products| - 1];
      NamesMember(init, n);
      if n in Names(init) {
        var i :| 0 <= i < |init| && init[i].name == n;
        assert products[i] == init[i];
      }
      if exists i :: 0 <= i < |products| && products[i].name == n {
        var i :| 0 <= i < |products| && products[i].name == n;
        if i < |init| {
          assert init[i] == products[i];
        }
      }
    }
  }

  /** The product built from a sample: its generated description, a fresh id, in stock. */
  function NewProduct(sample: Sample, id: string, description: string): Product
  {
    Product(id, sample.name, description, sample.price, sample.category, sample.imageUrl, sample.tags, true)
  }

  /** The seeding loop from sample `k` on. Each sample first gets a
      description from the language model (`describe(k)`, `None` when the
      call raises, which aborts the loop and keeps what was inserted so far)
      and an id (`ids(k)`); it is inserted only when no product has its name. */
  function SeedFrom(products: seq<Product>, samples: seq<Sample>, k: nat,
                    describe: nat -> Option<string>, ids: nat -> string)
    : (r: (Result<(), HttpError>, seq<Product>))
    requires k <= |samples|
    ensures products <= r.1
    ensures |r.1| <= |products| + |samples| - k
    ensures r.0.Ok? <==> forall j :: k <= j < |samples| ==> describe(j).Some?
    ensures r.0.Err? ==> r.0.error == Internal(LlmFailed)
    ensures Names(products) <= Names(r.1) <= Names(products) + SampleNames(samples, k)
    ensures r.0.Ok? ==> SampleNames(samples, k) <= Names(r.1)
    ensures SampleNames(samples, k) <= Names(products) ==> r.1 == products
    decreases |samples| - k
  {
    if k == |samples| then (Ok(()), products)
    else match describe(k)
      case None => (Err(Internal(LlmFailed)), products)
      case Some(d) =>
        var p := NewProduct(samples[k], ids(k), d);
        var next := if samples[k].name in Names(products) then products else products + [p];
        NamesAppend(products, p);
        assert Names(next) == Names(products) + {samples[k].name};
        SeedFrom(next, samples, k + 1, describe, ids)
  }

  /** The products the loop would build from sample `k` on, in sample
      order, up to the first description call that fails. */
  function Candidates(samples: seq<Sample>, k: nat, describe: nat -> Option<string>, ids: nat -> string): (r: seq<Product>)
    requires k <= |samples|
    ensures k + |r| <= |samples|
    decreases |samples| - k
  {
    if k == |samples| then []
    else match describe(k)
      case None => []
      case Some(d) => [NewProduct(samples[k], ids(k), d)] + Candidates(samples, k + 1, describe, ids)
  }

  /** The candidate at position `i` is the sample at index `k + i`, with its
      generated description and id. */
  lemma {:induction false} CandidatesAt(samples: seq<Sample>, k: nat, describe: nat -> Option<string>,
                                        ids: nat -> string, i: nat)
    requires k <= |samples| && i < |Candidates(samples, k, describe, ids)|
    ensures describe(k + i).Some?
    ensures Candidates(samples, k, describe, ids)[i] == NewProduct(samples[k + i], ids(k + i), describe(k + i).value)
    decreases i
  {
    if i > 0 {
      CandidatesAt(samples, k + 1, describe, ids, i - 1);
    }
  }

  /** The candidates run up to the first failing description call: every
      call before it succeeds, and the one right after the list fails. */
  lemma {:induction false} CandidatesStop(samples: seq<Sample>, k: nat, describe: nat -> Option<string>,
                                          ids: nat -> string)
    requires k <= |samples|
    ensures var n := |Candidates(samples, k, describe, ids)|;
            k + n < |samples| ==> describe(k + n).None?
    ensures forall j :: k <= j < k + |Candidates(samples, k, describe, ids)| ==> describe(j).Some?
    decreases |samples| - k
  {
    if k < |samples| && describe(k).Some? {
      CandidatesStop(samples, k + 1, describe, ids);
    }
  }

  /** Every product seeding appends carries a sample name the catalog lacked. */
  lemma {:induction false} SeedFromFresh(products: seq<Product>, samples: seq<Sample>, k: nat,
                                         describe: nat -> Option<string>, ids: nat -> string)
    requires k <= |samples|
    ensures var r := SeedFrom(products, samples, k, describe, ids).1;
            forall i :: |products| <= i < |r| ==>
              r[i].name !in Names(products) && r[i].name in SampleNames(samples, k)
    decreases |samples| - k
  {
    if k < |samples| && describe(k).Some? {
      var p := NewProduct(samples[k], ids(k), describe(k).value);
      var r := SeedFrom(products, samples, k, describe, ids).1;
      assert SampleNames(samples, k) == {samples[k].name} + SampleNames(samples, k + 1);
      if samples[k].name in Names(products) {
        assert r == SeedFrom(products, samples, k + 1, describe, ids).1;
        SeedFromFresh(products, samples, k + 1, describe, ids);
      } else {
        var next := products + [p];
        assert r == SeedFrom(next, samples, k + 1, describe, ids).1;
        SeedFromFresh(next, samples, k + 1, describe, ids);
        NamesAppend(products, p);
        forall i | |products| <= i < |r|
          ensures r[i].name !in Names(products) && r[i].name in SampleNames(samples, k)
        {
          if i == |products| {
            assert r[i] == next[i] == p;
          }
        }
      }
    }
  }

  /** Seeding keeps the names of a catalog unique: a product is appended
      only when its name is missing. */
  lemma {:induction false} SeedFromUnique(products: seq<Product>, samples: seq<Sample>, k: nat,
                                          describe: nat -> Option<string>, ids: nat -> string)
    requires k <= |samples|
    ensures UniqueNames(products) ==> UniqueNames(SeedFrom(products, samples, k, describe, ids).1)
    decreases |samples| - k, 1
  {
    if k < |samples| && describe(k).Some? {
      if samples[k].name in Names(products) {
        UniqueSkip(products, samples, k, describe, ids);
      } else {
        UniqueAppend(products, samples, k, describe, ids);
      }
    }
  }

  /** The step of `SeedFromUnique` for a sample whose name is present. */
  lemma {:induction false} UniqueSkip(products: seq<Product>, samples: seq<Sample>, k: nat,
                                      describe: nat -> Option<string>, ids: nat -> string)
    requires k < |samples| && describe(k).Some? && samples[k].name in Names(products)
    ensures UniqueNames(products) ==> UniqueNames(SeedFrom(products, samples, k, describe, ids).1)
    decreases |samples| - k, 0
  {
    SeedFromUnique(products, samples, k + 1, describe, ids);
    assert SeedFrom(products, samples, k, describe, ids).1 == SeedFrom(products, samples, k + 1, describe, ids).1;
  }

  /** The step of `SeedFromUnique` for a sample whose name is missing. */
  lemma {:induction false} UniqueAppend(products: seq<Product>, samples: seq<Sample>, k: nat,
                                        describe: nat -> Option<string>, ids: nat -> string)
    requires k < |samples| && describe(k).Some? && samples[k].name !in Names(products)
    ensures UniqueNames(products) ==> UniqueNames(SeedFrom(products, samples, k, describe, ids).1)
    decreases |samples| - k, 0
  {
    var p := NewProduct(samples[k], ids(k), describe(k).value);
    var next := products + [p];
    SeedFromUnique(next, samples, k + 1, describe, ids);
    assert SeedFrom(products, samples, k, describe, ids).1 == SeedFrom(next, samples, k + 1, describe, ids).1;
    if UniqueNames(products) {
      forall i | 0 <= i < |products|
        ensures next[i].name != p.name
      {
        NamesMember(products, products[i].name);
      }
    }
  }

  /** The products seeding appends are built from the samples, in sample
      order: each is a sample with its generated description and id. */
  lemma {:induction false} SeedFromInOrder(products: seq<Product>, samples: seq<Sample>, k: nat,
                                           describe: nat -> Option<string>, ids: nat -> string)
    requires k <= |samples|
    ensures var r := SeedFrom(products, samples, k, describe, ids).1;
            IsSubseq(r[|products|..], Candidates(samples, k, describe, ids))
    decreases |samples| - k, 1
  {
    if k < |samples| && describe(k).Some? {
      if samples[k].name in Names(products) {
        InOrderSkip(products, samples, k, describe, ids);
      } else {
        InOrderAppend(products, samples, k, describe, ids);
      }
    } else {
      var r := SeedFrom(products, samples, k, describe, ids).1;
      assert r[|products|..] == [];
    }
  }

  /** The step of `SeedFromInOrder` for a sample whose name is present. */
  lemma {:induction false} InOrderSkip(products: seq<Product>, samples: seq<Sample>, k: nat,
                                       describe: nat -> Option<string>, ids: nat -> string)
    requires k < |samples| && describe(k).Some? && samples[k].name in Names(products)
    ensures IsSubseq(SeedFrom(products, samples, k, describe, ids).1[|products|..],
                     Candidates(samples, k, describe, ids))
    decreases |samples| - k, 0
  {
    var p := NewProduct(samples[k], ids(k), describe(k).value);
    var r := SeedFrom(products, samples, k + 1, describe, ids).1;
    SeedFromInOrder(products, samples, k + 1, describe, ids);
    assert SeedFrom(products, samples, k, describe, ids).1 == r;
    assert Candidates(samples, k, describe, ids) == [p] + Candidates(samples, k + 1, describe, ids);
    SubseqCons(p, r[|products|..], Candidates(samples, k + 1, describe, ids));
  }

  /** The step of `SeedFromInOrder` for a sample whose name is missing. */
  lemma {:induction false} InOrderAppend(products: seq<Product>, samples: seq<Sample>, k: nat,
                                         describe: nat -> Option<string>, ids: nat -> string)
    requires k < |samples| && describe(k).Some? && samples[k].name !in Names(products)
    ensures IsSubseq(SeedFrom(products, samples, k, describe, ids).1[|products|..],
                     Candidates(samples, k, describe, ids))
    decreases |samples| - k, 0
  {
    var p := NewProduct(samples[k], ids(k), describe(k).value);
    var next := products + [p];
    var r := SeedFrom(next, samples, k + 1, describe, ids).1;
    SeedFromInOrder(next, samples, k + 1, describe, ids);
    assert SeedFrom(products, samples, k, describe, ids).1 == r;
    PrefixThen(products, p, r);
    assert Candidates(samples, k, describe, ids) == [p] + Candidates(samples, k + 1, describe, ids);
    SubseqCons(p, r[|next|..], Candidates(samples, k + 1, describe, ids));
  }

  /** Nothing is rolled back: every sample before the first failing
      description call has its name in the catalog afterwards, whether the
      loop then fails or not. */
  lemma {:induction false} SeedFromKeepsEarlier(products: seq<Product>, samples: seq<Sample>, k: nat,
                                                describe: nat -> Option<string>, ids: nat -> string)
    requires k <= |samples|
    ensures forall j :: k <= j < k + |Candidates(samples, k, describe, ids)| ==>
              samples[j].name in Names(SeedFrom(products, samples, k, describe, ids).1)
    decreases |samples| - k, 1
  {
    if k < |samples| && describe(k).Some? {
      if samples[k].name in Names(products) {
        KeepsSkip(products, samples, k, describe, ids);
      } else {
        KeepsAppend(products, samples, k, describe, ids);
      }
    }
  }

  /** The step of `SeedFromKeepsEarlier` for a sample whose name is present. */
  lemma {:induction false} KeepsSkip(products: seq<Product>, samples: seq<Sample>, k: nat,
                                     describe: nat -> Option<string>, ids: nat -> string)
    requires k < |samples| && describe(k).Some? && samples[k].name in Names(products)
    ensures forall j :: k <= j < k + |Candidates(samples, k, describe, ids)| ==>
              samples[j].name in Names(SeedFrom(products, samples, k, describe, ids).1)
    decreases |samples| - k, 0
  {
    var r := SeedFrom(products, samples, k + 1, describe, ids).1;
    assert SeedFrom(products, samples, k, describe, ids).1 == r;
    assert |Candidates(samples, k, describe, ids)| == 1 + |Candidates(samples, k + 1, describe, ids)|;
    assert Names(products) <= Names(r);
    SeedFromKeepsEarlier(products, samples, k + 1, describe, ids);
  }

  /** The step of `SeedFromKeepsEarlier` for a sample whose name is missing. */
  lemma {:induction false} KeepsAppend(products: seq<Product>, samples: seq<Sample>, k: nat,
                                       describe: nat -> Option<string>, ids: nat -> string)
    requires k < |samples| && describe(k).Some? && samples[k].name !in Names(products)
    ensures forall j :: k <= j < k + |Candidates(samples, k, describe, ids)| ==>
              samples[j].name in Names(SeedFrom(products, samples, k, describe, ids).1)
    decreases |samples| - k, 0
  {
    var p := NewProduct(samples[k], ids(k), describe(k).value);
    var next := products + [p];
    var r := SeedFrom(next, samples, k + 1, describe, ids).1;
    assert SeedFrom(products, samples, k, describe, ids).1 == r;
    assert |Candidates(samples, k, describe, ids)| == 1 + |Candidates(samples, k + 1, describe, ids)|;
    NamesAppend(products, p);
    assert samples[k].name in Names(next) && Names(next) <= Names(r);
    SeedFromKeepsEarlier(next, samples, k + 1, describe, ids);
  }

  /** `POST /products/seed` over the sample list. */
  function SeedProducts(s: Store, samples: seq<Sample>, describe: nat -> Option<string>, ids: nat -> string): (r: Reply<()>)
    ensures r.store.cart == s.cart
    ensures s.products <= r.store.products
    ensures |r.store.products| <= |s.products| + |samples|
    ensures r.result.Ok? <==> forall j :: 0 <= j < |samples| ==> describe(j).Some?
    ensures r.result.Err? ==> r.result.error == Internal(LlmFailed) && Status(r.result.error) == 500
    ensures r.result.Ok? ==> SampleNames(samples, 0) <= Names(r.store.products)
    ensures Names(r.store.products) <= Names(s.products) + SampleNames(samples, 0)
    ensures forall j :: 0 <= j < |Candidates(samples, 0, describe, ids)| ==>
              samples[j].name in Names(r.store.products)
  {
    SeedFromKeepsEarlier(s.products, samples, 0, describe, ids);
    var seeded := SeedFrom(s.products, samples, 0, describe, ids);
    Reply(seeded.0, s.(products := seeded.1))
  }

  /** Seeding only appends samples whose names were missing, each one a
      sample with its generated description and id, in sample order; a
      catalog with unique names keeps them unique. */
  lemma SeedAddsMissingSamples(s: Store, samples: seq<Sample>, describe: nat -> Option<string>, ids: nat -> string)
    ensures var r := SeedProducts(s, samples, describe, ids).store.products;
            forall i :: |s.products| <= i < |r| ==>
              r[i].name !in Names(s.products) && r[i].name in SampleNames(samples, 0)
    ensures var r := SeedProducts(s, samples, describe, ids).store.products;
            IsSubseq(r[|s.products|..], Candidates(samples, 0, describe, ids))
    ensures var r := SeedProducts(s, samples, describe, ids).store.products;
            forall i :: |s.products| <= i < |r| ==>
              exists j :: (&& 0 <= j < |samples| && describe(j).Some?
                           && r[i] == NewProduct(samples[j], ids(j), describe(j).value))
    ensures UniqueNames(s.products) ==> UniqueNames(SeedProducts(s, samples, describe, ids).store.products)
  {
    var r := SeedProducts(s, samples, describe, ids).store.products;
    assert r == SeedFrom(s.products, samples, 0, describe, ids).1;
    SeedFromFresh(s.products, samples, 0, describe, ids);
    SeedFromUnique(s.products, samples, 0, describe, ids);
    SeedFromInOrder(s.products, samples, 0, describe, ids);
    var added := r[|s.products|..];
    var cands := Candidates(samples, 0, describe, ids);
    SubseqMembers(added, cands);
    forall i | |s.products| <= i < |r|
      ensures exists j :: (&& 0 <= j < |samples| && describe(j).Some?
                           && r[i] == NewProduct(samples[j], ids(j), describe(j).value))
    {
      assert r[i] == added[i - |s.products|];
      assert r[i] in cands;
      var m :| 0 <= m < |cands| && cands[m] == r[i];
      CandidatesAt(samples, 0, describe, ids, m);
    }
  }

  /** Seeding again after a successful run adds nothing, whatever the
      language model answers the second time. */
  lemma {:induction false} SeedIdempotent(s: Store, samples: seq<Sample>, describe: nat -> Option<string>, ids: nat -> string,
                       describe2: nat -> Option<string>, ids2: nat -> string)
    requires SeedProducts(s, samples, describe, ids).result.Ok?
    ensures var s1 := SeedProducts(s, samples, describe, ids).store;
            SeedProducts(s1, samples, describe2, ids2).store == s1
  {
    var s1 := SeedProducts(s, samples, describe, ids).store;
    assert SampleNames(samples, 0) <= Names(s1.products);
  }

  /** With unique names there are as many names as products. */
  lemma {:induction false} NamesCount(products: seq<Product>)
    requires UniqueNames(products)
    ensures |Names(products)| == |products|
    decreases |products|
  {
    if |products| > 0 {
      var init := products[..|products| - 1];
      var last := products[|products| - 1];
      NamesMember(init, last.name);
      assert last.name !in Names(init);
      assert UniqueNames(init);
      NamesCount(init);
    }
  }

  /** A successful run on a catalog with unique names adds exactly one product
      per sample name the catalog lacked. */
  lemma {:induction false} SeedCount(s: Store, samples: seq<Sample>, describe: nat -> Option<string>, ids: nat -> string)
    requires UniqueNames(s.products)
    requires SeedProducts(s, samples, describe, ids).result.Ok?
    ensures var r := SeedProducts(s, samples, describe, ids);
            |r.store.products| == |s.products| + |SampleNames(samples, 0) - Names(s.products)|
  {
    var after := SeedProducts(s, samples, describe, ids).store.products;
    var added := SampleNames(samples, 0) - Names(s.products);
    assert Names(after) == Names(s.products) + added;
    assert Names(s.products) !! added;
    SeedAddsMissingSamples(s, samples, describe, ids);
    NamesCount(s.products);
    NamesCount(after);
  }

  /** The route itself: seeding with the eight sample products. */
  function SeedSampleCatalog(s: Store, describe: nat -> Option<string>, ids: nat -> string): (r: Reply<()>)
    ensures r.store.cart == s.cart && s.products <= r.store.products
    ensures r.result.Ok? <==> forall j :: 0 <= j < |SAMPLE_PRODUCTS| ==> describe(j).Some?
    ensures r.result.Ok? ==> SampleNames(SAMPLE_PRODUCTS, 0) <= Names(r.store.products)
    ensures |r.store.products| <= |s.products| + |SAMPLE_PRODUCTS|
  {
    SeedProducts(s, SAMPLE_PRODUCTS, describe, ids)
  }
}

=== FILE: seqs.dfy ===
/** Sequence helpers that give the collection scans of the handlers their meaning. */
module Seqs {
  import opened Wrappers

  /** Index of the first element of `s` that satisfies `p`: the document a
      `find_one` returns when the collection is scanned in stored order. */
  function FirstIndex<T>(s: seq<T>, p: T -> bool): (r: Option<nat>)
    ensures r.Some? ==> r.value < |s| && p(s[r.value])
    ensures r.Some? ==> forall j :: 0 <= j < r.value ==> !p(s[j])
    ensures r.None? <==> forall j :: 0 <= j < |s| ==> !p(s[j])
  {
    if |s| == 0 then None
    else if p(s[0]) then Some(0)
    else match FirstIndex(s[1..], p)
      case None => None
      case Some(i) => Some(i + 1)
  }

  /** `a` can be obtained from `b` by deleting elements: same order, nothing invented. */
  predicate IsSubseq<T(==)>(a: seq<T>, b: seq<T>)
    decreases |b|
  {
    || |a| == 0
    || (&& |b| > 0
        && ((a[0] == b[0] && IsSubseq(a[1..], b[1..])) || IsSubseq(a, b[1..])))
  }

  /** The elements of `s` that satisfy `p`, in their stored order: a `find` with a filter. */
  function Filter<T(==)>(s: seq<T>, p: T -> bool): (r: seq<T>)
    ensures |r| <= |s|
    ensures forall x :: x in r ==> x in s && p(x)
    ensures forall x :: x in s && p(x) ==> x in r
    ensures IsSubseq(r, s)
  {
    if |s| == 0 then []
    else
      var rest := Filter(s[1..], p);
      assert forall x :: x in s ==> x == s[0] || x in s[1..];
      if p(s[0]) then [s[0]] + rest else rest
  }

  /** At most the first `n` elements of `s`: a cursor's `limit(n)` / `to_list(n)`. */
  function Take<T>(s: seq<T>, n: nat): (r: seq<T>)
    ensures |r| <= n && |r| <= |s|
    ensures |s| <= n ==> r == s
    ensures n <= |s| ==> |r| == n
    ensures r == s[..|r|]
  {
    if |s| <= n then s else s[..n]
  }

  /** Filtering distributes over concatenation. */
  lemma {:induction false} FilterAppend<T>(a: seq<T>, b: seq<T>, p: T -> bool)
    ensures Filter(a + b, p) == Filter(a, p) + Filter(b, p)
    decreases |a|
  {
    if |a| == 0 {
      assert a + b == b;
    } else {
      assert (a + b)[1..] == a[1..] + b;
      FilterAppend(a[1..], b, p);
    }
  }

  /** Every sequence is a subsequence of itself. */
  lemma {:induction false} SubseqRefl<T>(s: seq<T>)
    ensures IsSubseq(s, s)
    decreases |s|
  {
    if |s| > 0 {
      SubseqRefl(s[1..]);
    }
  }

  /** A subsequence stays one when the same element is put in front of both,
      or in front of the whole only. */
  lemma SubseqCons<T>(x: T, a: seq<T>, b: seq<T>)
    requires IsSubseq(a, b)
    ensures IsSubseq([x] + a, [x] + b)
    ensures IsSubseq(a, [x] + b)
  {
    assert ([x] + a)[1..] == a;
    assert ([x] + b)[1..] == b;
  }

  /** What follows a prefix `a + [x]` of `r` starts with `x`. */
  lemma PrefixThen<T>(a: seq<T>, x: T, r: seq<T>)
    requires a + [x] <= r
    ensures r[|a|..] == [x] + r[|a| + 1..]
  {
    assert r[|a|] == (a + [x])[|a|] == x;
  }

  /** Every element of a subsequence is an element of the whole. */
  lemma {:induction false} SubseqMembers<T>(a: seq<T>, b: seq<T>)
    requires IsSubseq(a, b)
    ensures forall x :: x in a ==> x in b
    decreases |b|
  {
    if |a| == 0 {
    } else if IsSubseq(a, b[1..]) {
      SubseqMembers(a, b[1..]);
    } else {
      SubseqMembers(a[1..], b[1..]);
      assert forall x :: x in a ==> x == a[0] || x in a[1..];
    }
  }

  /** A subsequence of a prefix is a subsequence of the whole. */
  lemma {:induction false} SubseqOfPrefix<T>(a: seq<T>, b: seq<T>, c: seq<T>)
    requires IsSubseq(a, b)
    ensures IsSubseq(a, b + c)
    decreases |b|
  {
    if |a| == 0 {
    } else if IsSubseq(a, b[1..]) {
      assert (b + c)[1..] == b[1..] + c;
      SubseqOfPrefix(a, b[1..], c);
    } else {
      assert (b + c)[1..] == b[1..] + c;
      SubseqOfPrefix(a[1..], b[1..], c);
    }
  }

  /** Being a subsequence is transitive. */
  lemma {:induction false} SubseqTrans<T>(a: seq<T>, b: seq<T>, c: seq<T>)
    requires IsSubseq(a, b) && IsSubseq(b, c)
    ensures IsSubseq(a, c)
    decreases |c|
  {
    if |a| == 0 {
    } else if IsSubseq(b, c[1..]) {
      SubseqTrans(a, b, c[1..]);
    } else if IsSubseq(a, b[1..]) {
      SubseqTrans(a, b[1..], c[1..]);
    } else {
      SubseqTrans(a[1..], b[1..], c[1..]);
    }
  }

  /** Deleting one element leaves a subsequence. */
  lemma {:induction false} DeleteIsSubseq<T>(s: seq<T>, i: nat)
    requires i < |s|
    ensures IsSubseq(s[..i] + s[i + 1..], s)
    decreases |s|
  {
    if i == 0 {
      assert s[..0] + s[1..] == s[1..];
      SubseqTail(s);
    } else {
      assert (s[..i] + s[i + 1..])[0] == s[0];
      assert (s[..i] + s[i + 1..])[1..] == s[1..][..i - 1] + s[1..][i..];
      DeleteIsSubseq(s[1..], i - 1);
    }
  }

  /** The tail of a sequence is a subsequence of it. */
  lemma {:induction false} SubseqTail<T>(a: seq<T>)
    requires |a| > 0
    ensures IsSubseq(a[1..], a)
    decreases |a|
  {
    SubseqRefl(a[1..]);
  }
}

=== FILE: text.dfy ===
/** The string handling applied to the language model's comma-separated
    replies: Python's `str.split(',')`, `str.strip()` and `str.lower()`. */
module Text {

  /** The characters Python's `str.strip()` removes: those `str.isspace` accepts. */
  predicate IsSpace(c: char)
  {
    || ('\t' <= c <= '\r')
    || ('\U{1C}' <= c <= ' ')
    || c == '\U{85}' || c == '\U{A0}' || c == '\U{1680}'
    || ('\U{2000}' <= c <= '\U{200A}')
    || c == '\U{2028}' || c == '\U{2029}' || c == '\U{202F}' || c == '\U{205F}'
    || c == '\U{3000}'
  }

  predicate AllSpace(s: string)
  {
    forall i :: 0 <= i < |s| ==> IsSpace(s[i])
  }

  /** No whitespace at either end. */
  predicate Trimmed(s: string)
  {
    |s| == 0 || (!IsSpace(s[0]) && !IsSpace(s[|s| - 1]))
  }

  // ---------------------------------------------------------------- split

  /** Python's `s.split(sep)` for a one-character separator: the maximal
      separator-free pieces between separators, empty pieces included. */
  function Split(s: string, sep: char): (parts: seq<string>)
    ensures |parts| >= 1
    ensures forall i :: 0 <= i < |parts| ==> sep !in parts[i]
    decreases |s|
  {
    if |s| == 0 then [""]
    else
      var rest := Split(s[1..], sep);
      if s[0] == sep then [""] + rest
      else [[s[0]] + rest[0]] + rest[1..]
  }

  /** Python's `sep.join(parts)`. */
  function Join(parts: seq<string>, sep: char): string
  {
    if |parts| == 0 then ""
    else if |parts| == 1 then parts[0]
    else parts[0] + [sep] + Join(parts[1..], sep)
  }

  /** Joining the pieces back with the separator gives the original string. */
  lemma {:induction false} SplitJoin(s: string, sep: char)
    ensures Join(Split(s, sep), sep) == s
    decreases |s|
  {
    if |s| > 0 {
      var rest := Split(s[1..], sep);
      SplitJoin(s[1..], sep);
      assert s == [s[0]] + s[1..];
      if s[0] == sep {
        assert ([""] + rest)[1..] == rest;
      } else {
        var parts := [[s[0]] + rest[0]] + rest[1..];
        assert parts[1..] == rest[1..];
        if |rest| > 1 {
          assert Join(rest, sep) == rest[0] + [sep] + Join(rest[1..], sep);
        }
      }
    }
  }

  /** A separator-free prefix is glued onto the first piece of what follows. */
  lemma {:induction false} SplitPrefix(a: string, t: string, sep: char)
    requires sep !in a
    ensures Split(a + t, sep) == [a + Split(t, sep)[0]] + Split(t, sep)[1..]
    decreases |a|
  {
    if |a| == 0 {
      assert a + t == t;
      var s := Split(t, sep);
      assert a + s[0] == s[0];
      assert s == [s[0]] + s[1..];
    } else {
      assert (a + t)[1..] == a[1..] + t;
      SplitPrefix(a[1..], t, sep);
      var s := Split(t, sep);
      var rest := Split(a[1..] + t, sep);
      assert rest[0] == a[1..] + s[0] && rest[1..] == s[1..];
      assert (a + t)[0] == a[0] && a[0] != sep;
      assert Split(a + t, sep) == [[a[0]] + rest[0]] + rest[1..];
      assert [a[0]] + (a[1..] + s[0]) == a + s[0];
    }
  }

  /** Splitting separator-free pieces joined with the separator gives the pieces back. */
  lemma {:induction false} JoinSplit(parts: seq<string>, sep: char)
    requires |parts| >= 1
    requires forall i :: 0 <= i < |parts| ==> sep !in parts[i]
    ensures Split(Join(parts, sep), sep) == parts
    decreases |parts|
  {
    if |parts| == 1 {
      SplitPrefix(parts[0], "", sep);
      assert parts[0] + "" == parts[0];
    } else {
      var tail := Join(parts[1..], sep);
      JoinSplit(parts[1..], sep);
      var t := [sep] + tail;
      assert t[1..] == tail;
      assert Split(t, sep) == [""] + parts[1..];
      assert Join(parts, sep) == parts[0] + t;
      SplitPrefix(parts[0], t, sep);
      assert parts[0] + "" == parts[0];
      assert parts == [parts[0]] + parts[1..];
    }
  }

  /** There is one more piece than there are separators. */
  lemma {:induction false} SplitCount(s: string, sep: char)
    ensures |Split(s, sep)| == multiset(s)[sep] + 1
    decreases |s|
  {
    if |s| > 0 {
      SplitCount(s[1..], sep);
      assert s == [s[0]] + s[1..];
      assert multiset(s) == multiset([s[0]]) + multiset(s[1..]);
    }
  }

  // ---------------------------------------------------------------- strip

  /** The forward scan of `str.strip()`: the first index at or after `k`
      that does not hold whitespace. */
  function SkipSpace(s: string, k: nat): (n: nat)
    requires k <= |s|
    ensures k <= n <= |s|
    ensures forall i :: k <= i < n ==> IsSpace(s[i])
    ensures n < |s| ==> !IsSpace(s[n])
    decreases |s| - k
  {
    if k < |s| && IsSpace(s[k]) then SkipSpace(s, k + 1) else k
  }

  /** The backward scan of `str.strip()`: moving down from `j`, but never
      below `lo`, the end of the last character that is not whitespace. */
  function SkipSpaceBack(s: string, lo: nat, j: nat): (n: nat)
    requires lo <= j <= |s|
    ensures lo <= n <= j
    ensures forall i :: n <= i < j ==> IsSpace(s[i])
    ensures n > lo ==> !IsSpace(s[n - 1])
    decreases j
  {
    if j > lo && IsSpace(s[j - 1]) then SkipSpaceBack(s, lo, j - 1) else j
  }

  /** `r` is the slice `s[i..j]` and everything around it is whitespace. */
  predicate PaddedBy(s: string, r: string, i: nat, j: nat)
  {
    i <= j <= |s| && r == s[i..j] && AllSpace(s[..i]) && AllSpace(s[j..])
  }

  /** Python's `s.strip()`: `s` with its leading and trailing whitespace removed. */
  function Strip(s: string): (r: string)
    ensures Trimmed(r)
    ensures exists i, j :: PaddedBy(s, r, i, j)
  {
    var i := SkipSpace(s, 0);
    var j := SkipSpaceBack(s, i, |s|);
    assert PaddedBy(s, s[i..j], i, j);
    s[i..j]
  }

  /** The forward scan stops at the first non-whitespace index. */
  lemma {:induction false} SkipSpaceTo(s: string, k: nat, n: nat)
    requires k <= n <= |s|
    requires forall i :: k <= i < n ==> IsSpace(s[i])
    requires n < |s| ==> !IsSpace(s[n])
    ensures SkipSpace(s, k) == n
    decreases n - k
  {
    if k < n {
      SkipSpaceTo(s, k + 1, n);
    }
  }

  /** The backward scan stops just after the last non-whitespace index. */
  lemma {:induction false} SkipSpaceBackTo(s: string, lo: nat, j: nat, n: nat)
    requires lo <= n <= j <= |s|
    requires forall i :: n <= i < j ==> IsSpace(s[i])
    requires n > lo ==> !IsSpace(s[n - 1])
    ensures SkipSpaceBack(s, lo, j) == n
    decreases j - n
  {
    if n < j {
      SkipSpaceBackTo(s, lo, j - 1, n);
    }
  }

  /** Strip removes exactly the surrounding whitespace and nothing else:
      a trimmed string padded with whitespace on both sides strips back to itself. */
  lemma {:induction false} StripPadded(a: string, k: string, b: string)
    requires AllSpace(a) && AllSpace(b) && Trimmed(k)
    ensures Strip(a + k + b) == k
  {
    var s := a + k + b;
    if |k| == 0 {
      SkipSpaceTo(s, 0, |s|);
      SkipSpaceBackTo(s, |s|, |s|, |s|);
      assert s[|s|..|s|] == k;
    } else {
      assert s[|a|] == k[0];
      SkipSpaceTo(s, 0, |a|);
      assert s[|a| + |k| - 1] == k[|k| - 1];
      SkipSpaceBackTo(s, |a|, |s|, |a| + |k|);
      assert s[|a|..|a| + |k|] == k;
    }
  }

  /** Stripping twice is stripping once. */
  lemma {:induction false} StripIdempotent(s: string)
    ensures Strip(Strip(s)) == Strip(s)
  {
    var r := Strip(s);
    assert "" + r + "" == r;
    StripPadded("", r, "");
  }

  // ---------------------------------------------------------------- lower

  predicate IsUpper(c: char)
  {
    'A' <= c <= 'Z'
  }

  function LowerChar(c: char): char
  {
    if IsUpper(c) then (c as int + 32) as char else c
  }

  /** `s.lower()` on the ASCII letters. */
  function Lower(s: string): (r: string)
    ensures |r| == |s|
    ensures forall i :: 0 <= i < |s| ==> !IsUpper(r[i])
    ensures forall i :: 0 <= i < |s| && !IsUpper(s[i]) ==> r[i] == s[i]
    ensures forall i :: 0 <= i < |s| && IsUpper(s[i]) ==> r[i] as int == s[i] as int + 32
  {
    seq(|s|, i requires 0 <= i < |s| => LowerChar(s[i]))
  }

  /** Lower-casing changes no whitespace and adds no comma. */
  lemma {:induction false} LowerKeepsShape(s: string)
    ensures Trimmed(s) ==> Trimmed(Lower(s))
    ensures forall i :: 0 <= i < |s| ==> (IsSpace(Lower(s)[i]) <==> IsSpace(s[i]))
    ensures ',' !in s ==> ',' !in Lower(s)
  {
  }

  // ---------------------------------------------------------------- replies

  /** The search keywords read out of a reply:
      `[keyword.strip() for keyword in response.split(',')]`. */
  function ParseKeywords(reply: string): (r: seq<string>)
    ensures |r| == multiset(reply)[','] + 1
    ensures forall i :: 0 <= i < |r| ==> Trimmed(r[i]) && ',' !in r[i]
  {
    var parts := Split(reply, ',');
    SplitCount(reply, ',');
    seq(|parts|, i requires 0 <= i < |parts| => StripInfix(parts[i], ','))
  }

  /** The recommended categories read out of a reply:
      `[cat.strip().lower() for cat in response.split(',')]`. */
  function ParseCategories(reply: string): (r: seq<string>)
    ensures |r| == multiset(reply)[','] + 1
    ensures forall i :: 0 <= i < |r| ==> Trimmed(r[i]) && ',' !in r[i]
    ensures forall i, k :: 0 <= i < |r| && 0 <= k < |r[i]| ==> !IsUpper(r[i][k])
  {
    var kws := ParseKeywords(reply);
    seq(|kws|, i requires 0 <= i < |kws| => LowerTrimmed(kws[i]))
  }

  /** Strip of a piece that lacks `c` still lacks `c`. */
  function StripInfix(s: string, c: char): (r: string)
    requires c !in s
    ensures r == Strip(s) && c !in r
  {
    var r := Strip(s);
    assert forall x :: x in r ==> x in s;
    r
  }

  /** Lower of a trimmed, comma-free string is trimmed and comma-free. */
  function LowerTrimmed(s: string): (r: string)
    requires Trimmed(s) && ',' !in s
    ensures r == Lower(s) && Trimmed(r) && ',' !in r
  {
    LowerKeepsShape(s);
    Lower(s)
  }

  /** A reply written as the keywords joined by commas, keyword `i` preceded
      by `pre[i]` and followed by `post[i]`. */
  function PaddedReply(kws: seq<string>, pre: seq<string>, post: seq<string>): string
    requires |pre| == |kws| == |post|
  {
    Join(seq(|kws|, i requires 0 <= i < |kws| => pre[i] + kws[i] + post[i]), ',')
  }

  /** Any reply listing trimmed, comma-free keywords, each with arbitrary
      whitespace around it, parses back to exactly those keywords. */
  lemma {:induction false} KeywordsRoundTrip(kws: seq<string>, pre: seq<string>, post: seq<string>)
    requires |kws| >= 1 && |pre| == |kws| == |post|
    requires forall i :: 0 <= i < |kws| ==> AllSpace(pre[i]) && AllSpace(post[i])
    requires forall i :: 0 <= i < |kws| ==> Trimmed(kws[i]) && ',' !in kws[i]
    ensures ParseKeywords(PaddedReply(kws, pre, post)) == kws
  {
    var parts := seq(|kws|, i requires 0 <= i < |kws| => pre[i] + kws[i] + post[i]);
    forall i | 0 <= i < |kws|
      ensures ',' !in parts[i]
    {
      assert !IsSpace(',');
      assert forall c :: c in pre[i] ==> IsSpace(c);
      assert forall c :: c in post[i] ==> IsSpace(c);
    }
    JoinSplit(parts, ',');
    var r := ParseKeywords(PaddedReply(kws, pre, post));
    forall i | 0 <= i < |kws|
      ensures r[i] == kws[i]
    {
      StripPadded(pre[i], kws[i], post[i]);
    }
  }

  /** The same reply read as categories gives the lower-cased keywords. */
  lemma {:induction false} CategoriesRoundTrip(kws: seq<string>, pre: seq<string>, post: seq<string>)
    requires |kws| >= 1 && |pre| == |kws| == |post|
    requires forall i :: 0 <= i < |kws| ==> AllSpace(pre[i]) && AllSpace(post[i])
    requires forall i :: 0 <= i < |kws| ==> Trimmed(kws[i]) && ',' !in kws[i]
    ensures ParseCategories(PaddedReply(kws, pre, post)) == seq(|kws|, i requires 0 <= i < |kws| => Lower(kws[i]))
  {
    KeywordsRoundTrip(kws, pre, post);
  }

  // The usual shape of a reply is `"a, b"`: one space after each comma.

  /** `"a, b"` lists the keywords `a` and `b`. */
  lemma TwoPieceKeywords(a: string, b: string)
    requires Trimmed(a) && ',' !in a && Trimmed(b) && ',' !in b
    ensures ParseKeywords(a + ", " + b) == [a, b]
  {
    SplitTwo(a, b);
    StripTrimmed(a);
    StripSpaced(b);
  }

  /** `"a, b"` lists the categories `a` and `b`, lower-cased. */
  lemma TwoPieceCategories(a: string, b: string)
    requires Trimmed(a) && ',' !in a && Trimmed(b) && ',' !in b
    ensures ParseCategories(a + ", " + b) == [Lower(a), Lower(b)]
  {
    TwoPieceKeywords(a, b);
  }

  lemma SplitTwo(a: string, b: string)
    requires ',' !in a && ',' !in b
    ensures Split(a + ", " + b, ',') == [a, " " + b]
  {
    var parts := [a, " " + b];
    assert parts[1..] == [" " + b];
    assert Join(parts, ',') == a + ", " + b;
    JoinSplit(parts, ',');
  }

  lemma StripTrimmed(a: string)
    requires Trimmed(a)
    ensures Strip(a) == a
  {
    assert "" + a + "" == a;
    StripPadded("", a, "");
  }

  lemma StripSpaced(b: string)
    requires Trimmed(b)
    ensures Strip(" " + b) == b
  {
    assert AllSpace(" ");
    assert " " + b + "" == " " + b;
    StripPadded(" ", b, "");
  }
}

=== FILE: wrappers.dfy ===
/** `Option` and `Result`, shared by every handler. */
module Wrappers {

  /** A value that may be absent: a `find_one` that matched nothing, or a
      foreign call (the language model) that raised instead of replying. */
  datatype Option<+T> = None | Some(value: T)

  /** The outcome of a handler: a value, or the HTTP error it raises. */
  datatype Result<+T, +E> = Ok(value: T) | Err(error: E)
}
